=== FILE: README.md ===
# Assisted-service MCP server: verified model of its pure core

This project models, in Dafny, the deterministic logic inside an MCP server
that exposes Red Hat's Assisted Installer inventory as tools. Three parts are covered:

- **Token resolution** (`server.py`). `get_offline_token` takes the offline
  token from the `OFFLINE_TOKEN` environment variable, else from the
  `ocm-offline-token` request header, else fails. `get_access_token` takes
  a bearer token from the `authorization` header. Failing that, it
  exchanges the offline token at the SSO endpoint.
  The environment and the headers are explicit maps. A missing request
  context is `None` and reads as an empty header map. The SSO endpoint is
  an oracle from request to reply. Every environment read, header read and
  POST is recorded in a trace, so the contracts can say "the headers were
  never read" and "no POST happened". Errors are a `Result`.
- **Tool-level rules** (`server.py`). These cover presigned-URL formatting with its zero-date
  rule, the ISO download-URL aggregation, the unset-cluster-id guard of
  `create_cluster` and the transport whitelist.
- **Inventory-client parameter building**
  (`service_client/assisted_service_api.py`). This covers single-node overrides,
  the VIP lists of `update_cluster`, the default event categories, operator
  bundle parameters and `_get_host`. Keyword arguments and the generated
  model objects are maps from parameter name to value.
- **Log redaction and level** (`service_client/logger.py`). Each of the
  eight `re.sub` calls of `SensitiveFormatter._filter` is a left-to-right
  scan that replaces non-overlapping matches. `MatchAt` computes the match
  the regex engine picks. `DictShape` and `ObjectShape` describe
  declaratively which texts each pattern can match. The lemmas tie the two
  together: the dict-form match is the shortest such prefix, because `.*?` is
  lazy, and the object-form match is the only one.

Files: `wrappers.dfy` (`Option`, `Result`), `text.dfy` (`str.isspace`,
`str.split()`, `join`, prefixes), `credentials.dfy`, `tools.dfy`,
`inventory_params.dfy`, `logger.dfy`.

Behaviour of the code that the model keeps:

- `get_access_token` splits the authorization header with `str.split()`.
  Any whitespace run separates the scheme from the token, leading and
  trailing whitespace is ignored, and the scheme may be in any letter case.
- An SSO reply without `access_token` raises `KeyError` in the code. The
  model returns the error `MissingAccessToken`.
- `SSO_URL` that is present but empty is used as the URL, because the code uses `os.environ.get` with a default.
- `raise_for_status()` fails exactly for status codes 400 to 599.

## Model

| member | source | states |
|---|---|---|
| Credentials.GetOfflineToken | server.py:47-76 | Succeeds iff the environment token or the header token is non-empty. A non-empty environment token is returned and the headers are never read. Otherwise the header value is returned. An empty string counts as absent. Failure is `MissingOfflineToken` with a message containing "No offline token found". No POST is ever made |
| Credentials.GetAccessToken | server.py:79-117 | Headers are read first. A well-formed bearer header gives its token, with no offline-token lookup and no POST. Otherwise an offline-token failure is returned with no POST. If the offline token is found, exactly one POST is made: to `SSO_URL` (or the default), with form `client_id=cloud-services, grant_type=refresh_token, refresh_token=<offline>` and timeout 30. The result is what the reply yields |
| Credentials.ReadAccessToken | server.py:114-117 | The reply yields a token iff there is no transport failure, no 4xx/5xx status, the body is a JSON object and it has `access_token`. That field is then the token. Transport failures and HTTP error statuses propagate unchanged, with no retry |
| Credentials.BearerToken | server.py:96-101 | The direct path is never taken for a missing or empty header. A token it yields is a non-empty word with no whitespace |
| Credentials.BlankHeaderIsNotBearer | server.py:96-101 | A header of whitespace only splits into no words and is not a bearer header |
| Credentials.BearerTokenAccepts | server.py:95-101 | `<scheme><ws><token>` with any surrounding whitespace, and the scheme lower-casing to `bearer`, yields exactly the token |
| Credentials.BearerTokenWords | server.py:97-101 | For a header made of whitespace-separated words, the direct path is taken iff there are exactly two words and the first is `bearer` in some case. The token is then the second word |
| Credentials.EnvironmentTokenWins | server.py:64-67 | A non-empty `OFFLINE_TOKEN` is returned whatever the headers hold, and the headers are not read |
| Credentials.MissingRequestIsEmptyHeaders | server.py:69-70 | No request context gives the same results and traces as an empty header map, for both token functions |
| Credentials.BearerHeaderScenario | server.py:95-101 | Empty environment with header `authorization: Bearer abc123` gives `abc123`, and the trace is one header read |
| Credentials.ExchangeScenario | server.py:104-117 | With no bearer header and offline token `off1` from the header, a reply `{"access_token": "new1"}` gives `new1`. There is exactly one POST with `refresh_token=off1`, and it goes to the default URL when `SSO_URL` is unset |
| Text.Split | server.py:98 | Python's `str.split()` with no separator: every part it returns is a non-empty word without whitespace. `SplitUnwords` and `SplitTwoWords` pin down which words |
| Text.SplitUnwords | server.py:98 | `str.split()` recovers any list of whitespace-free words joined by single spaces |
| Text.SplitTwoWords | server.py:98 | Two words with arbitrary whitespace before, between and after them split into exactly those two words |
| Tools.FormatPresignedUrl | server.py:26-44 | The text always starts with `URL: <url>`. The `\nExpires at: <e>` line follows iff the expiry is set, non-empty and does not start with `0001-01-01`. Otherwise the text is the URL line alone |
| Tools.ZeroDateOmitted | server.py:38-41 | Any expiry starting with the zero date `0001-01-01` prints only the URL line |
| Tools.ExpiryLine | server.py:37-44 | A missing expiry prints the URL line only. A real expiry adds exactly one `Expires at:` line |
| Tools.ClusterIsoDownloadText | server.py:247-285 | One download-URL request per infra env, in order, using `id` or `"unknown"`. The text is the fixed "No ISO download URLs found…" message iff no entry has a non-empty URL. Otherwise it is the formatted entries with a URL, in input order, joined by a blank line |
| Tools.CreateClusterReply | server.py:323-336 | An unset cluster id gives the failure message and no infra env is created. A set id is the reply, and the infra env is created with the tool's name, that id and the cluster's version |
| Tools.CreateClusterFailureNamesCluster | server.py:323-325 | With an unset cluster id the reply starts with `Failed to create cluster ` and contains the name asked for |
| Tools.GetTransport | server.py:551-556 | The result is always one of `http`, `streamable-http`, `sse`. It is `TRANSPORT` when that names one of them, and `sse` otherwise, including when unset |
| Tools.TransportStable | server.py:551-556 | Writing the chosen transport back into the environment selects it again |
| InventoryParams.ClientDebug | service_client/assisted_service_api.py:39 | An unset `CLIENT_DEBUG` leaves debugging off. Only a four-character value can turn it on |
| InventoryParams.ClientDebugIffTrue | service_client/assisted_service_api.py:39 | Debugging is on iff `CLIENT_DEBUG` is set and is `true` in some mix of letter cases, each of its four letters upper or lower |
| InventoryParams.ClientDebugSpellings | service_client/assisted_service_api.py:39 | `TRUE` and `True` turn debugging on. `False` and `1` leave it off |
| InventoryParams.InventoryUrl | service_client/assisted_service_api.py:36-38 | A set `INVENTORY_URL` is used as given, even when empty. Otherwise the URL is `https://api.openshift.com/api/assisted-install/v2` |
| InventoryParams.ClusterCreateParams | service_client/assisted_service_api.py:188-198 | Succeeds iff the caller's params do not repeat `name`, `openshift_version` or `pull_secret`. The keys are exactly the caller's keys, the three explicit ones and, for single-node, the three forced ones. Single-node forces `control_plane_count=1`, `high_availability_mode="None"` and `user_managed_networking=True`. Every other caller value is kept |
| InventoryParams.SingleNodeIgnoresCallerValues | service_client/assisted_service_api.py:188-191 | For a single-node cluster, the caller's values for the three forced keys make no difference to the result |
| InventoryParams.MultiNodePassesThrough | service_client/assisted_service_api.py:193-198 | For a multi-node cluster, every non-explicit key of the result is the caller's, unchanged |
| InventoryParams.CreateClusterToolParams | server.py:320-322 | The `create_cluster` tool always builds valid params. Their keys are exactly `base_dns_domain`, `tags`, `name`, `openshift_version`, `pull_secret` and, iff single-node was asked for, the three forced single-node keys with their forced values. They carry the tool's base domain, the `chatbot` tag, the name, the version and the pull secret |
| InventoryParams.ClusterUpdateParams | service_client/assisted_service_api.py:246-252 | `api_vip != ""` sets `api_vips` to the single `ApiVip(cluster_id, api_vip)`. The same holds for `ingress_vip`/`ingress_vips` with `IngressVip`. Every other given parameter is kept. The keys are exactly the given ones plus `api_vips` iff `api_vip != ""` and `ingress_vips` iff `ingress_vip != ""`, so a VIP left at `""` adds no key |
| InventoryParams.DefaultVipsLeaveParams | service_client/assisted_service_api.py:246-252 | With both VIPs at their default `""`, the update is exactly the given parameters |
| InventoryParams.EventsRequest | service_client/assisted_service_api.py:115-153 | Fails with `DuplicateKeyword` iff the extra keyword arguments hold `_preload_content`. Otherwise a missing category list becomes `["user"]`, and any given list is forwarded unchanged, even an empty one. The ids and extra arguments are forwarded, and content is not preloaded |
| InventoryParams.EventsDefaultCategories | service_client/assisted_service_api.py:136-137 | Omitting the categories gives the same request, or the same error, as passing `["user"]` |
| InventoryParams.OperatorParams | service_client/assisted_service_api.py:331-333 | One operator parameter per operator name, same length, same order |
| InventoryParams.OperatorBundleUpdate | service_client/assisted_service_api.py:331-336 | The update carries only `olm_operators`, one entry per bundle operator in order, and no VIP field |
| InventoryParams.GetHost | service_client/assisted_service_api.py:75-80 | Scheme and network location come from the inventory URL. Path, params, query and fragment come from the configured host |
| InventoryParams.ClientConfiguration | service_client/assisted_service_api.py:51-57 | The client's host takes its scheme and network location from the parsed `INVENTORY_URL` (or its default), and keeps the rest of the default host. Debugging is on iff `CLIENT_DEBUG` is `true` in some letter case. The API key is the access token with prefix `Bearer` |
| InventoryParams.GetHostIdempotent | service_client/assisted_service_api.py:75-80 | Re-pointing twice equals re-pointing once. A host already at the inventory's scheme and location is unchanged |
| Logger.MatchAt | service_client/logger.py:22-47 | A match starts with the rule's marker, extends past it and stays within the text. Its exact extent is given by the two lemmas below |
| Logger.DictMatchIsShortest | service_client/logger.py:22-29 | The dict-form match has the pattern's shape: key, one or more whitespace characters, a quote, a value with no newline, a quote. It is the shortest such prefix. When no prefix has that shape, there is no match |
| Logger.ObjectMatchIsUnique | service_client/logger.py:32-47 | The object-form match has the pattern's shape: `name='`, a quote-free value, a quote. It is the only prefix of that shape. When none exists, there is no match |
| Logger.Substitute | service_client/logger.py:22-47 | A substitution leaves unchanged any text not containing its marker |
| Logger.SubstituteAfterPlain | service_client/logger.py:22-47 | Text in which no match can start is copied unchanged, and the scan continues after it |
| Logger.RedactDictField | service_client/logger.py:22-29 | In `'<key>':<ws>'<value>'`, where the value has no quote or newline, only the value becomes the mask. The key and whitespace are kept, and scanning resumes after the closing quote |
| Logger.RedactObjectField | service_client/logger.py:32-47 | `<name>='<value>'` with a quote-free value becomes `<name> = <mask>`, and scanning resumes after the closing quote |
| Logger.FilterOrder | service_client/logger.py:20-49 | `_filter` runs all four dict-form substitutions, then the four object-form ones |
| Logger.Filter | service_client/logger.py:20-49 | A text containing none of the eight markers comes back unchanged |
| Logger.GetLoggingLevel | service_client/logger.py:65-73 | An unset or empty `LOGGING_LEVEL` gives INFO (20). So does a name that is not an attribute of `logging`. A set name gives the attribute its upper-cased form names. A numeric result is always a standard level. A non-level attribute is reported by its upper-cased name |
| Logger.LoggingLevelIgnoresCase | service_client/logger.py:73 | The level name is looked up regardless of letter case |
| Logger.Upper | service_client/logger.py:73 | `str.upper()`: each character's upper case, in order. The result is at least as long as the input and at most three times as long, and it holds no lower-case ASCII letter |
| Logger.UpperIdempotent | service_client/logger.py:73 | Upper-casing an upper-cased name changes nothing, including after the `ß` and ligature expansions |
| Logger.UpperPlainName | service_client/logger.py:73 | A name of ASCII letters, digits and `_` upper-cases character for character, capitalising exactly the lower-case letters |
| Logger.DebugLevelExample | service_client/logger.py:65-73 | `debug` gives DEBUG (10) |
| Logger.WarningLevelExample | service_client/logger.py:65-73 | `Warning` gives WARNING (30) |
| Logger.UnknownLevelExample | service_client/logger.py:65-73 | `verbose` names no attribute and gives INFO |
| Logger.LigatureNamesStyles | service_client/logger.py:73 | `_ﬆyles` upper-cases to `_STYLES`, so the lookup returns the non-level attribute `_STYLES` |

## Left out

- The `log.debug`, `log.info` and `log.error` calls of `server.py` (lines 63-76 and 93-116 among others) are not modelled or traced. They only write diagnostics.
- MCP tool registration, async dispatch, `track_tool_usage`, the HTTP app, uvicorn and the metrics route are left out. They are framework plumbing.
- Network calls are not modelled as code. The SSO POST is an oracle, and a transport failure is its error message.
  `_get_pull_secret` is not modelled: the pull secret is a parameter of
  `ClusterCreateParams`.
- The inventory API calls (`ApiClient`, `Configuration`, `api.*`, `asyncio.to_thread`) are foreign library code. The tools
  that only forward to them are left out: `cluster_info`, `list_clusters`, `cluster_events`,
  `host_events`, `set_cluster_vips`, `install_cluster`, `list_versions`,
  `list_operator_bundles`, `set_host_role`, and the client methods `get_cluster`,
  `list_clusters`, `get_infra_env`, `create_infra_env`, `install_cluster`,
  `get_openshift_versions`, `get_operator_bundles`, `update_host`. Only their
  parameter building, where present, is modelled.
- `json.dumps` and the model objects' `to_str()`/`to_dict()` are left out: their serialisation is library behaviour.
- `urlparse`/`geturl` are left out. URLs are given as their six components, and
  `ClientConfiguration` takes `urlparse` as a parameter. The `Configuration` object's
  own default host is a parameter too.
- Each JSON value of the SSO reply is taken to be a string. A non-string `access_token` is not modelled.
- Header names are given in lower case, as the MCP framework's
  `get_http_headers` delivers them. Case-insensitive header lookup is not modelled.
- Python's `str.lower()` is modelled on ASCII letters only. No other character lower-cases
  into `b`, `e`, `a`, `r`, `t` or `u`, so comparisons with `bearer` and `true` are
  exact.
- Logger.Upper: Python's `str.upper()` is modelled on every non-ASCII character whose
  upper case consists only of ASCII letters: `ı` → `I`, `ſ` → `S`, `ß` → `SS`
  and the ligatures U+FB00-U+FB06 → `FF`, `FI`, `FL`, `FFI`, `FFL`, `ST`, `ST`.
  On ASCII it capitalises `a`-`z` and keeps the rest, as Python does. Every
  other character is kept as it is. Python upper-cases each of those to a
  text that still holds a non-ASCII character, sometimes beside an ASCII
  letter (`ŉ` → `ʼN`, `ǰ` → `J̌`). Either way the `logging` lookup misses,
  because no attribute name of `logging` contains a non-ASCII character.
- InventoryParams.ClusterCreateParams: it does not say which clashing keyword Python's `TypeError` names. The
  generated model class's own validation of unknown keywords is not
  modelled.
- InventoryParams.ClusterUpdateParams: `V2ClusterUpdateParams(**update_params)` rejects
  unknown keywords with a `TypeError`. That validation belongs to the generated
  model class and is not modelled: every given key is kept.
- Logger.GetLoggingLevel: only the upper-case attributes of the `logging` module
  are tabled: the eight level names plus `BASIC_FORMAT` and `_STYLES`.
- `SensitiveFormatter.format` is the filter applied to the standard formatter's output. That
  base formatting is library code, so `Filter` is the whole model of it.
- Handler setup, log files, streams and module-level logger configuration are left out. They are I/O.
- `expires_at` is modelled as the text `str()` gives for it. Datetime handling is not modelled.
- `service_client/__init__.py` only re-exports names, so it is not part of this model.

=== FILE: credentials.dfy ===
/** Offline-token and access-token resolution of the MCP server
    (`get_offline_token` and `get_access_token` in server.py).

    The process environment and the request headers are explicit maps; a
    missing request context is `None`, which reads as an empty header map.
    The SSO token endpoint is an oracle from request to reply, and every
    observable step (an environment read, a header read, the POST) is
    recorded in a trace so that "the headers were never read" and "no POST
    happened" can be stated. */
module Credentials {
  import opened Wrappers
  import opened Text

  type Env = map<string, string>
  type Headers = map<string, string>

  const OfflineTokenVar := "OFFLINE_TOKEN"
  const SsoUrlVar := "SSO_URL"
  const OfflineTokenHeader := "ocm-offline-token"
  const AuthorizationHeader := "authorization"
  const DefaultSsoUrl := "https://sso.redhat.com/auth/realms/redhat-external/protocol/openid-connect/token"
  const MissingTokenPhrase := "No offline token found"
  const NoOfflineTokenMessage := MissingTokenPhrase + " in environment or request headers"
  const ClientId := "cloud-services"
  const GrantType := "refresh_token"
  const AccessTokenField := "access_token"
  const SsoTimeout: nat := 30

  /** The arguments of `requests.post(url, data=form, timeout=timeout)`. */
  datatype SsoRequest = SsoRequest(url: string, form: map<string, string>, timeout: nat)

  /** An HTTP reply: its status code and its body read as a JSON object
      (`None` when the body is not one). */
  datatype SsoResponse = SsoResponse(status: int, json: Option<map<string, string>>)

  /** The SSO endpoint: a reply, or the message of a transport failure
      (connection error, timeout). */
  type SsoOracle = SsoRequest -> Result<SsoResponse, string>

  datatype Event =
    | EnvRead(name: string)
    | HeadersRead
    | SsoPost(request: SsoRequest)

  datatype Error =
    | MissingOfflineToken(message: string)
    | TransportFailure(message: string)
    | HttpError(status: int)
    | InvalidJson
    | MissingAccessToken

  /** A result together with the steps taken to compute it. */
  datatype Traced<T> = Traced(result: Result<T, Error>, trace: seq<Event>)

  /** `m.get(key)`. */
  function Get(m: map<string, string>, key: string): Option<string> {
    if key in m then Some(m[key]) else None
  }

  /** Python truthiness of an optional string: present and non-empty. */
  predicate Truthy(v: Option<string>) {
    v.Some? && v.value != ""
  }

  /** `get_http_headers()`: no request context reads as no headers. */
  function RequestHeaders(request: Option<Headers>): Headers {
    request.GetOr(map[])
  }

  /** The POSTs of a trace, in order. */
  function SsoPosts(trace: seq<Event>): seq<SsoRequest>
    decreases |trace|
  {
    if |trace| == 0 then []
    else (if trace[0].SsoPost? then [trace[0].request] else []) + SsoPosts(trace[1..])
  }

  lemma SsoPostsAppend(a: seq<Event>, b: seq<Event>)
    ensures SsoPosts(a + b) == SsoPosts(a) + SsoPosts(b)
    decreases |a|
  {
    if |a| > 0 {
      assert (a + b)[1..] == a[1..] + b;
      SsoPostsAppend(a[1..], b);
    } else {
      assert a + b == b;
    }
  }

  lemma MissingTokenMessage()
    ensures Occurs(NoOfflineTokenMessage, MissingTokenPhrase)
  {
    assert NoOfflineTokenMessage[0..] == NoOfflineTokenMessage;
    assert StartsWith(NoOfflineTokenMessage[0..], MissingTokenPhrase);
  }

  /** server.py `get_offline_token`: the environment wins, then the
      `ocm-offline-token` header; an empty value counts as absent. */
  function GetOfflineToken(env: Env, request: Option<Headers>): (r: Traced<string>)
    ensures r.result.Ok? <==>
      Truthy(Get(env, OfflineTokenVar)) || Truthy(Get(RequestHeaders(request), OfflineTokenHeader))
    ensures r.result.Ok? ==> r.result.value != ""
    ensures Truthy(Get(env, OfflineTokenVar)) ==>
      r.result == Ok(env[OfflineTokenVar]) && HeadersRead !in r.trace
    ensures !Truthy(Get(env, OfflineTokenVar)) ==> HeadersRead in r.trace
    ensures !Truthy(Get(env, OfflineTokenVar)) && r.result.Ok? ==>
      r.result.value == RequestHeaders(request)[OfflineTokenHeader]
    ensures r.result.Err? ==>
      r.result.error.MissingOfflineToken? && Occurs(r.result.error.message, MissingTokenPhrase)
    ensures SsoPosts(r.trace) == []
  {
    var fromEnv := Get(env, OfflineTokenVar);
    if Truthy(fromEnv) then
      Traced(Ok(fromEnv.value), [EnvRead(OfflineTokenVar)])
    else
      var fromHeader := Get(RequestHeaders(request), OfflineTokenHeader);
      var trace := [EnvRead(OfflineTokenVar), HeadersRead];
      assert SsoPosts(trace) == [] by {
        assert trace[1..][1..] == [];
        assert SsoPosts(trace[1..]) == [];
      }
      if Truthy(fromHeader) then
        Traced(Ok(fromHeader.value), trace)
      else
        assert Occurs(NoOfflineTokenMessage, MissingTokenPhrase) by {
          MissingTokenMessage();
        }
        Traced(Err(MissingOfflineToken(NoOfflineTokenMessage)), trace)
  }

  /** A header of whitespace only is not a bearer header. */
  lemma BlankHeaderIsNotBearer(ws: string)
    requires AllSpace(ws)
    ensures BearerToken(Some(ws)).None?
  {
    SplitAllSpace(ws);
  }

  /** The direct path of `get_access_token`: the `authorization` header,
      when non-empty, split on whitespace into exactly two words of which
      the first lower-cases to `bearer`; the second word is the token. */
  function BearerToken(auth: Option<string>): (r: Option<string>)
    ensures !Truthy(auth) ==> r.None?
    ensures r.Some? ==> IsWord(r.value)
  {
    if Truthy(auth) then
      var parts := Split(auth.value);
      if |parts| == 2 && LowerAsciiString(parts[0]) == "bearer" then Some(parts[1]) else None
    else None
  }

  /** `os.environ.get("SSO_URL", default)`: a present key wins even when empty. */
  function SsoUrl(env: Env): string {
    Get(env, SsoUrlVar).GetOr(DefaultSsoUrl)
  }

  /** The form of the refresh-token grant. */
  function RefreshForm(offline: string): map<string, string> {
    map["client_id" := ClientId, "grant_type" := GrantType, "refresh_token" := offline]
  }

  function TokenRequest(env: Env, offline: string): SsoRequest {
    SsoRequest(SsoUrl(env), RefreshForm(offline), SsoTimeout)
  }

  /** `raise_for_status()` raises for client and server error codes. */
  predicate IsHttpError(status: int) {
    400 <= status < 600
  }

  /** `response.raise_for_status()` then `response.json()["access_token"]`. */
  function ReadAccessToken(reply: Result<SsoResponse, string>): (r: Result<string, Error>)
    ensures r.Ok? <==>
      && reply.Ok?
      && !IsHttpError(reply.value.status)
      && reply.value.json.Some?
      && AccessTokenField in reply.value.json.value
    ensures r.Ok? ==> r.value == reply.value.json.value[AccessTokenField]
    ensures reply.Err? ==> r == Err(TransportFailure(reply.error))
    ensures reply.Ok? && IsHttpError(reply.value.status) ==> r == Err(HttpError(reply.value.status))
  {
    match reply
    case Err(message) => Err(TransportFailure(message))
    case Ok(response) =>
      if IsHttpError(response.status) then Err(HttpError(response.status))
      else match response.json
        case None => Err(InvalidJson)
        case Some(body) =>
          if AccessTokenField in body then Ok(body[AccessTokenField]) else Err(MissingAccessToken)
  }

  /** server.py `get_access_token`. */
  function GetAccessToken(env: Env, request: Option<Headers>, sso: SsoOracle): (r: Traced<string>)
    ensures |r.trace| > 0 && r.trace[0] == HeadersRead
    // direct path: no offline-token lookup and no POST
    ensures BearerToken(Get(RequestHeaders(request), AuthorizationHeader)).Some? ==>
      && r.result == Ok(BearerToken(Get(RequestHeaders(request), AuthorizationHeader)).value)
      && SsoPosts(r.trace) == []
      && EnvRead(OfflineTokenVar) !in r.trace
    // exchange path: at most one POST, and exactly one when an offline token is found
    ensures BearerToken(Get(RequestHeaders(request), AuthorizationHeader)).None? ==>
      var offline := GetOfflineToken(env, request);
      && EnvRead(OfflineTokenVar) in r.trace
      && (offline.result.Err? ==> r.result == Err(offline.result.error) && SsoPosts(r.trace) == [])
      && (offline.result.Ok? ==>
            && SsoPosts(r.trace) == [SsoRequest(SsoUrl(env), RefreshForm(offline.result.value), SsoTimeout)]
            && r.result == ReadAccessToken(sso(SsoPosts(r.trace)[0])))
  {
    var direct := BearerToken(Get(RequestHeaders(request), AuthorizationHeader));
    if direct.Some? then
      Traced(Ok(direct.value), [HeadersRead])
    else
      var offline := GetOfflineToken(env, request);
      var head := [HeadersRead] + offline.trace;
      assert head[1..] == offline.trace;
      assert SsoPosts(head) == [];
      if offline.result.Err? then
        Traced(Err(offline.result.error), head)
      else
        var request := TokenRequest(env, offline.result.value);
        var tail := [EnvRead(SsoUrlVar), SsoPost(request)];
        assert SsoPosts(tail) == [request] by {
          assert tail[1..] == [SsoPost(request)];
          assert tail[1..][1..] == [];
          assert SsoPosts(tail[1..]) == [request] + SsoPosts([]);
          assert SsoPosts(tail) == [] + SsoPosts(tail[1..]);
        }
        SsoPostsAppend(head, tail);
        Traced(ReadAccessToken(sso(request)), head + tail)
  }

  /** Any header `<scheme> <token>`, with any whitespace around and between the
      two words and the scheme `bearer` in any letter case, yields the token. */
  lemma BearerTokenAccepts(lead: string, scheme: string, mid: string, token: string, trail: string)
    requires AllSpace(lead) && AllSpace(mid) && |mid| > 0 && AllSpace(trail)
    requires IsWord(scheme) && IsWord(token)
    requires LowerAsciiString(scheme) == "bearer"
    ensures BearerToken(Some(lead + scheme + mid + token + trail)) == Some(token)
  {
    SplitTwoWords(lead, scheme, mid, token, trail);
  }

  /** For a header made of whitespace-separated words, the direct path is
      taken exactly when there are two words and the first is `bearer` in
      some letter case; the token is then the second word. */
  lemma {:induction false} BearerTokenWords(words: seq<string>)
    requires forall i :: 0 <= i < |words| ==> IsWord(words[i])
    ensures BearerToken(Some(Unwords(words))).Some? <==>
      |words| == 2 && LowerAsciiString(words[0]) == "bearer"
    ensures BearerToken(Some(Unwords(words))).Some? ==>
      BearerToken(Some(Unwords(words))).value == words[1]
  {
    SplitUnwords(words);
    if |words| > 0 {
      assert |Unwords(words)| > 0 by {
        if |words| > 1 {
          assert Unwords(words) == words[0] + " " + Unwords(words[1..]);
        }
      }
    }
  }

  /** A token in the environment is returned whatever the headers say, and
      the headers are not read. */
  lemma EnvironmentTokenWins(token: string, env: Env, request: Option<Headers>)
    requires token != ""
    ensures var r := GetOfflineToken(env[OfflineTokenVar := token], request);
      r.result == Ok(token) && HeadersRead !in r.trace
  {
  }

  /** No request context behaves exactly like an empty header map. */
  lemma MissingRequestIsEmptyHeaders(env: Env, sso: SsoOracle)
    ensures GetOfflineToken(env, None) == GetOfflineToken(env, Some(map[]))
    ensures GetAccessToken(env, None, sso) == GetAccessToken(env, Some(map[]), sso)
  {
  }

  /** `authorization: Bearer abc123` with an empty environment: the token is
      returned and nothing else happens. */
  lemma BearerHeaderScenario(sso: SsoOracle)
    ensures GetAccessToken(map[], Some(map[AuthorizationHeader := "Bearer abc123"]), sso)
      == Traced(Ok("abc123"), [HeadersRead])
  {
    assert "Bearer abc123" == "" + "Bearer" + " " + "abc123" + "";
    BearerTokenAccepts("", "Bearer", " ", "abc123", "");
  }

  /** No authorization header: one POST to the configured endpoint with the
      offline token from the header, and the reply's `access_token`. */
  lemma ExchangeScenario(env: Env, sso: SsoOracle)
    requires OfflineTokenVar !in env
    requires sso(TokenRequest(env, "off1")) == Ok(SsoResponse(200, Some(map[AccessTokenField := "new1"])))
    ensures var r := GetAccessToken(env, Some(map[OfflineTokenHeader := "off1"]), sso);
      && r.result == Ok("new1")
      && SsoPosts(r.trace) == [SsoRequest(SsoUrl(env), RefreshForm("off1"), SsoTimeout)]
      && (SsoUrlVar !in env ==> SsoPosts(r.trace)[0].url == DefaultSsoUrl)
  {
  }
}

=== FILE: inventory_params.dfy ===
/** Request-parameter construction of the inventory client
    (`InventoryClient` in service_client/assisted_service_api.py). Keyword
    arguments and the generated model objects are maps from parameter
    name to value; the remote calls themselves are not modelled. */
module InventoryParams {
  import opened Wrappers
  import opened Text

  /** A parameter value. `ApiVip` and `IngressVip` are the VIP model objects
      (`ip` is optional because the client forwards whatever it was given),
      `Operator` is `OperatorCreateParams(name=…)`. */
  datatype Value =
    | Null
    | Str(s: string)
    | Int(i: int)
    | Bool(b: bool)
    | List(items: seq<Value>)
    | ApiVip(clusterId: string, ip: Option<string>)
    | IngressVip(clusterId: string, ip: Option<string>)
    | Operator(name: string)

  type Params = map<string, Value>

  datatype ParamError =
    /** A keyword given both explicitly and in `**params` (Python's TypeError). */
    | DuplicateKeyword

  const DefaultInventoryUrl := "https://api.openshift.com/api/assisted-install/v2"

  /** `os.environ.get("INVENTORY_URL", default)` in the constructor. */
  function InventoryUrl(env: map<string, string>): (r: string)
    ensures "INVENTORY_URL" in env ==> r == env["INVENTORY_URL"]
    ensures "INVENTORY_URL" !in env ==> r == "https://api.openshift.com/api/assisted-install/v2"
  {
    if "INVENTORY_URL" in env then env["INVENTORY_URL"] else DefaultInventoryUrl
  }

  /** `os.environ.get("CLIENT_DEBUG", "False").lower() == "true"`. */
  function ClientDebug(env: map<string, string>): (r: bool)
    ensures "CLIENT_DEBUG" !in env ==> !r
    ensures r ==> |env["CLIENT_DEBUG"]| == 4
  {
    "CLIENT_DEBUG" in env && LowerAsciiString(env["CLIENT_DEBUG"]) == "true"
  }

  /** `v` is `true` in some mix of letter cases. */
  predicate TrueInSomeCase(v: string) {
    |v| == 4 && forall k :: 0 <= k < 4 ==> v[k] == "true"[k] || v[k] == "TRUE"[k]
  }

  /** Debugging is on exactly when `CLIENT_DEBUG` is `true` in some letter case. */
  lemma ClientDebugIffTrue(env: map<string, string>)
    ensures ClientDebug(env) <==> "CLIENT_DEBUG" in env && TrueInSomeCase(env["CLIENT_DEBUG"])
  {
    var v := if "CLIENT_DEBUG" in env then env["CLIENT_DEBUG"] else "False";
    var lower := LowerAsciiString(v);
    if TrueInSomeCase(v) {
      assert lower == "true" by {
        forall k | 0 <= k < 4 ensures lower[k] == "true"[k] {
          assert v[k] == "true"[k] || v[k] == "TRUE"[k];
        }
      }
    }
    if lower == "true" {
      forall k | 0 <= k < 4 ensures v[k] == "true"[k] || v[k] == "TRUE"[k] {
        assert LowerAscii(v[k]) == "true"[k];
      }
    }
  }

  /** `TRUE` and `True` turn debugging on; `False` and `1` leave it off. */
  lemma ClientDebugSpellings(env: map<string, string>)
    ensures ClientDebug(env["CLIENT_DEBUG" := "TRUE"]) && ClientDebug(env["CLIENT_DEBUG" := "True"])
    ensures !ClientDebug(env["CLIENT_DEBUG" := "False"]) && !ClientDebug(env["CLIENT_DEBUG" := "1"])
  {
    ClientDebugIffTrue(env["CLIENT_DEBUG" := "TRUE"]);
    ClientDebugIffTrue(env["CLIENT_DEBUG" := "True"]);
    ClientDebugIffTrue(env["CLIENT_DEBUG" := "False"]);
    ClientDebugIffTrue(env["CLIENT_DEBUG" := "1"]);
  }

  /** The keywords `create_cluster` passes explicitly. */
  const ExplicitCreateKeys: set<string> := {"name", "openshift_version", "pull_secret"}

  /** The keywords forced for a single-node cluster. */
  const SingleNodeKeys: set<string> := {"control_plane_count", "high_availability_mode", "user_managed_networking"}

  /** `cluster_params` after the single-node overrides of `create_cluster`. */
  function SingleNodeOverrides(clusterParams: Params): Params {
    clusterParams["control_plane_count" := Int(1)]
                 ["high_availability_mode" := Str("None")]
                 ["user_managed_networking" := Bool(true)]
  }

  /** `InventoryClient.create_cluster`: the `ClusterCreateParams` it builds
      from the name, the version, the client's pull secret and the extra
      keyword arguments. `clusterParams` is `**cluster_params` once Python
      has bound the call, so it never holds `name`, `version` or
      `single_node`, which are parameters of `create_cluster` itself. Of the
      keywords passed explicitly, only `openshift_version` and `pull_secret`
      can clash with it. */
  function ClusterCreateParams(name: string, version: string, singleNode: bool, pullSecret: string, clusterParams: Params)
    : (r: Result<Params, ParamError>)
    ensures r.Ok? <==> clusterParams.Keys !! ExplicitCreateKeys
    ensures r.Ok? ==>
      && r.value.Keys == clusterParams.Keys + ExplicitCreateKeys + (if singleNode then SingleNodeKeys else {})
      && r.value["name"] == Str(name)
      && r.value["openshift_version"] == Str(version)
      && r.value["pull_secret"] == Str(pullSecret)
    ensures r.Ok? && singleNode ==>
      && r.value["control_plane_count"] == Int(1)
      && r.value["high_availability_mode"] == Str("None")
      && r.value["user_managed_networking"] == Bool(true)
    ensures r.Ok? ==> forall k :: k in clusterParams && !(singleNode && k in SingleNodeKeys) ==>
      r.value[k] == clusterParams[k]
  {
    var params := if singleNode then SingleNodeOverrides(clusterParams) else clusterParams;
    if params.Keys !! ExplicitCreateKeys then
      Ok(params + map["name" := Str(name), "openshift_version" := Str(version), "pull_secret" := Str(pullSecret)])
    else
      Err(DuplicateKeyword)
  }

  /** For a single-node cluster the caller's values for the forced keys make
      no difference. */
  lemma SingleNodeIgnoresCallerValues(name: string, version: string, pullSecret: string, a: Params, b: Params)
    requires a.Keys + SingleNodeKeys == b.Keys + SingleNodeKeys
    requires forall k :: k in a && k in b && k !in SingleNodeKeys ==> a[k] == b[k]
    ensures ClusterCreateParams(name, version, true, pullSecret, a) == ClusterCreateParams(name, version, true, pullSecret, b)
  {
    var pa := SingleNodeOverrides(a);
    var pb := SingleNodeOverrides(b);
    assert pa.Keys == a.Keys + SingleNodeKeys && pb.Keys == b.Keys + SingleNodeKeys;
    assert forall k :: k in pa ==> pa[k] == pb[k];
    assert pa == pb;
  }

  /** For a multi-node cluster the caller's parameters pass through as given. */
  lemma MultiNodePassesThrough(name: string, version: string, pullSecret: string, clusterParams: Params)
    requires clusterParams.Keys !! ExplicitCreateKeys
    ensures var r := ClusterCreateParams(name, version, false, pullSecret, clusterParams);
      r.Ok? && forall k :: k in r.value && k !in ExplicitCreateKeys ==> k in clusterParams && r.value[k] == clusterParams[k]
  {
  }

  /** The parameters the `create_cluster` tool of server.py registers: the
      base domain and the `chatbot` tag, through the client's rules. */
  function CreateClusterToolParams(name: string, version: string, baseDomain: string, singleNode: bool, pullSecret: string)
    : (r: Result<Params, ParamError>)
    ensures r.Ok?
    ensures "base_dns_domain" in r.value && r.value["base_dns_domain"] == Str(baseDomain)
    ensures "tags" in r.value && r.value["tags"] == Str("chatbot")
    ensures "name" in r.value && r.value["name"] == Str(name)
    ensures "openshift_version" in r.value && r.value["openshift_version"] == Str(version)
    ensures "pull_secret" in r.value && r.value["pull_secret"] == Str(pullSecret)
    ensures r.value.Keys == {"base_dns_domain", "tags"} + ExplicitCreateKeys + (if singleNode then SingleNodeKeys else {})
    ensures singleNode ==>
      && r.value["control_plane_count"] == Int(1)
      && r.value["high_availability_mode"] == Str("None")
      && r.value["user_managed_networking"] == Bool(true)
  {
    ClusterCreateParams(name, version, singleNode, pullSecret, map["base_dns_domain" := Str(baseDomain), "tags" := Str("chatbot")])
  }

  /** `InventoryClient.update_cluster`: `V2ClusterUpdateParams(**update_params)`
      with `api_vips` / `ingress_vips` replaced by a one-element list when
      the matching argument differs from `""` (so also when it is `None`). */
  function ClusterUpdateParams(clusterId: string, apiVip: Option<string>, ingressVip: Option<string>, updateParams: Params)
    : (r: Params)
    ensures apiVip != Some("") ==> "api_vips" in r && r["api_vips"] == List([ApiVip(clusterId, apiVip)])
    ensures ingressVip != Some("") ==> "ingress_vips" in r && r["ingress_vips"] == List([IngressVip(clusterId, ingressVip)])
    ensures forall k :: k in updateParams && !(k == "api_vips" && apiVip != Some(""))
                        && !(k == "ingress_vips" && ingressVip != Some("")) ==>
      k in r && r[k] == updateParams[k]
    ensures r.Keys == updateParams.Keys + (if apiVip != Some("") then {"api_vips"} else {})
                    + (if ingressVip != Some("") then {"ingress_vips"} else {})
  {
    var withApi := if apiVip != Some("") then updateParams["api_vips" := List([ApiVip(clusterId, apiVip)])] else updateParams;
    if ingressVip != Some("") then withApi["ingress_vips" := List([IngressVip(clusterId, ingressVip)])] else withApi
  }

  /** With both VIPs left at their default `""` the update is exactly the
      given parameters. */
  lemma DefaultVipsLeaveParams(clusterId: string, updateParams: Params)
    ensures ClusterUpdateParams(clusterId, Some(""), Some(""), updateParams) == updateParams
  {
  }

  /** The arguments `get_events` passes to `v2_list_events`. */
  datatype EventsQuery = EventsQuery(
    clusterId: Option<string>,
    hostId: Option<string>,
    infraEnvId: Option<string>,
    categories: seq<string>,
    preloadContent: bool,
    extra: Params)

  const DefaultEventCategories: seq<string> := ["user"]

  /** `InventoryClient.get_events`: only a missing category list (`None`)
      becomes `["user"]`; any given list, even an empty one, is forwarded.
      `extra` is `**kwargs`; Python binds the four named parameters by name,
      so it never holds those, but a `_preload_content` in it clashes with
      the explicit `_preload_content=False` and raises `TypeError`. */
  function EventsRequest(clusterId: Option<string>, hostId: Option<string>, infraEnvId: Option<string>,
                         categories: Option<seq<string>>, extra: Params): (r: Result<EventsQuery, ParamError>)
    ensures r.Err? <==> "_preload_content" in extra
    ensures r.Err? ==> r.error == DuplicateKeyword
    ensures r.Ok? && categories.None? ==> r.value.categories == ["user"]
    ensures r.Ok? && categories.Some? ==> r.value.categories == categories.value
    ensures r.Ok? ==> r.value.clusterId == clusterId && r.value.hostId == hostId && r.value.infraEnvId == infraEnvId
    ensures r.Ok? ==> !r.value.preloadContent && r.value.extra == extra
  {
    if "_preload_content" in extra then Err(DuplicateKeyword)
    else Ok(EventsQuery(clusterId, hostId, infraEnvId, categories.GetOr(DefaultEventCategories), false, extra))
  }

  /** Leaving the categories out is the same request as asking for `["user"]`. */
  lemma EventsDefaultCategories(clusterId: Option<string>, hostId: Option<string>, infraEnvId: Option<string>,
                                extra: Params)
    ensures EventsRequest(clusterId, hostId, infraEnvId, None, extra)
         == EventsRequest(clusterId, hostId, infraEnvId, Some(["user"]), extra)
  {
  }

  /** One `OperatorCreateParams(name=…)` per operator name, in order. */
  function OperatorParams(names: seq<string>): (r: seq<Value>)
    ensures |r| == |names|
    ensures forall i :: 0 <= i < |names| ==> r[i] == Operator(names[i])
  {
    seq(|names|, i requires 0 <= i < |names| => Operator(names[i]))
  }

  /** `InventoryClient.add_operator_bundle_to_cluster`: the update it sends
      for a bundle whose operators are `operatorNames`. */
  function OperatorBundleUpdate(clusterId: string, operatorNames: seq<string>): (r: Params)
    ensures r.Keys == {"olm_operators"}
    ensures r["olm_operators"].List?
    ensures |r["olm_operators"].items| == |operatorNames|
    ensures forall i :: 0 <= i < |operatorNames| ==> r["olm_operators"].items[i] == Operator(operatorNames[i])
  {
    ClusterUpdateParams(clusterId, Some(""), Some(""), map["olm_operators" := List(OperatorParams(operatorNames))])
  }

  /** The six components `urlparse` splits a URL into. */
  datatype Url = Url(scheme: string, netloc: string, path: string, params: string, query: string, fragment: string)

  /** `InventoryClient._get_host`: the configured host with its scheme and
      network location taken from the inventory URL. */
  function GetHost(configured: Url, inventory: Url): (r: Url)
    ensures r.scheme == inventory.scheme && r.netloc == inventory.netloc
    ensures r.path == configured.path && r.params == configured.params
    ensures r.query == configured.query && r.fragment == configured.fragment
  {
    configured.(scheme := inventory.scheme, netloc := inventory.netloc)
  }

  /** The settings `InventoryClient._get_client` gives the generated
      `Configuration`. */
  datatype ClientConfig = ClientConfig(host: Url, debug: bool, apiKeyPrefix: string, apiKey: string)

  /** `InventoryClient._get_client`, with the client built from `env`.
      `defaultHost` is the generated `Configuration`'s own host and `parse`
      is `urlparse`, both library code. */
  function ClientConfiguration(env: map<string, string>, accessToken: string, defaultHost: Url,
                               parse: string -> Url): (r: ClientConfig)
    ensures r.host.scheme == parse(InventoryUrl(env)).scheme && r.host.netloc == parse(InventoryUrl(env)).netloc
    ensures r.host.path == defaultHost.path && r.host.params == defaultHost.params
    ensures r.host.query == defaultHost.query && r.host.fragment == defaultHost.fragment
    ensures r.debug ==> "CLIENT_DEBUG" in env && TrueInSomeCase(env["CLIENT_DEBUG"])
    ensures "CLIENT_DEBUG" in env && TrueInSomeCase(env["CLIENT_DEBUG"]) ==> r.debug
    ensures r.apiKeyPrefix == "Bearer" && r.apiKey == accessToken
  {
    ClientDebugIffTrue(env);
    ClientConfig(GetHost(defaultHost, parse(InventoryUrl(env))), ClientDebug(env), "Bearer", accessToken)
  }

  /** Re-pointing an already re-pointed host changes nothing, and a host
      that already has the inventory's scheme and location is kept. */
  lemma GetHostIdempotent(configured: Url, inventory: Url)
    ensures GetHost(GetHost(configured, inventory), inventory) == GetHost(configured, inventory)
    ensures configured.scheme == inventory.scheme && configured.netloc == inventory.netloc ==>
      GetHost(configured, inventory) == configured
  {
  }
}

=== FILE: logger.dfy ===
/** Log redaction and the log-level setting of service_client/logger.py.

    `SensitiveFormatter._filter` runs eight `re.sub` calls in a fixed order.
    Each is modelled as a left-to-right scan: at each position the pattern
    is tried; on a match the matched text is replaced and the scan resumes
    after it, otherwise one character is copied. `MatchAt` computes the
    match the backtracking engine finds, and `DictShape` / `ObjectShape`
    state independently which texts the patterns describe. */
module Logger {
  import opened Wrappers
  import opened Text

  /** The two kinds of substitution.
      `DictRule(key, mask)`: `('<key>':\s+)'(.*?)'` becomes `\g<1>'<mask>'`.
      `ObjectRule(name, mask)`: `(<name>='[^']*(?=')')` becomes `<name> = <mask>`. */
  datatype Rule =
    | DictRule(key: string, mask: string)
    | ObjectRule(name: string, mask: string)

  /** The literal text every match of a rule starts with. */
  function Marker(rule: Rule): string {
    match rule
    case DictRule(key, _) => "'" + key + "':"
    case ObjectRule(name, _) => name + "='"
  }

  /** The character classes of the patterns: `\s`, `.` (anything but a
      newline), `.` cut short by a quote (what the lazy `.*?` consumes before
      its closing quote), and `[^']`. */
  datatype CharClass = Space | NotNewline | ValueChar | NonQuote

  predicate InClass(c: char, cls: CharClass) {
    match cls
    case Space => IsSpace(c)
    case NotNewline => c != '\n'
    case ValueChar => c != '\'' && c != '\n'
    case NonQuote => c != '\''
  }

  predicate AllIn(s: string, cls: CharClass) {
    forall k :: 0 <= k < |s| ==> InClass(s[k], cls)
  }

  /** Every character of `s` from position `lo` up to (not including) `hi`
      is inside `cls`. */
  predicate AllInRange(s: string, lo: nat, hi: nat, cls: CharClass)
    requires lo <= hi <= |s|
  {
    forall k :: lo <= k < hi ==> InClass(s[k], cls)
  }

  /** A slice inside the class is a range inside the class. */
  lemma AllInSlice(s: string, lo: nat, hi: nat, cls: CharClass)
    requires lo <= hi <= |s| && AllIn(s[lo..hi], cls)
    ensures AllInRange(s, lo, hi, cls)
  {
    forall k | lo <= k < hi
      ensures InClass(s[k], cls)
    {
      assert s[lo..hi][k - lo] == s[k];
    }
  }

  /** A range inside the class in a prefix is one in the whole text. */
  lemma PrefixRange(s: string, l: nat, lo: nat, hi: nat, cls: CharClass)
    requires lo <= hi <= l <= |s| && AllInRange(s[..l], lo, hi, cls)
    ensures AllInRange(s, lo, hi, cls)
  {
    forall k | lo <= k < hi
      ensures InClass(s[k], cls)
    {
      assert s[..l][k] == s[k];
    }
  }

  /** Where the longest run of `cls` characters starting at `from` ends: what
      a greedy `cls*` consumes. */
  function RunEnd(s: string, from: nat, cls: CharClass): (e: nat)
    requires from <= |s|
    ensures from <= e <= |s|
    ensures AllInRange(s, from, e, cls)
    ensures e < |s| ==> !InClass(s[e], cls)
    decreases |s| - from
  {
    if from < |s| && InClass(s[from], cls) then RunEnd(s, from + 1, cls) else from
  }

  /** A run is cut by the first character outside the class. */
  lemma RunEndBound(s: string, from: nat, cls: CharClass, n: nat)
    requires from <= n < |s| && !InClass(s[n], cls)
    ensures RunEnd(s, from, cls) <= n
  {
  }

  /** A range inside the class followed by a character outside it is the run. */
  lemma RunEndExact(s: string, from: nat, cls: CharClass, e: nat)
    requires from <= e <= |s| && AllInRange(s, from, e, cls)
    requires e < |s| ==> !InClass(s[e], cls)
    ensures RunEnd(s, from, cls) == e
  {
  }

  /** A match found at the start of the text: its length and what replaces it. */
  datatype Hit = Hit(len: nat, replacement: string)

  /** The match `re.sub` finds at the start of `s`, if any. */
  function MatchAt(s: string, rule: Rule): (m: Option<Hit>)
    ensures m.Some? ==> StartsWith(s, Marker(rule))
    ensures m.Some? ==> |Marker(rule)| < m.value.len <= |s|
  {
    var marker := Marker(rule);
    if !StartsWith(s, marker) then None
    else match rule
      case DictRule(_, mask) => DictMatch(s, |marker|, mask)
      case ObjectRule(name, mask) =>
        var e := RunEnd(s, |marker|, NonQuote);
        if e < |s| then Some(Hit(e + 1, name + " = " + mask)) else None
  }

  /** The dict form after its marker, which ends at `m`. `\s+` takes the
      whole whitespace run: a shorter one would leave a space where the
      opening quote must be. */
  function DictMatch(s: string, m: nat, mask: string): (r: Option<Hit>)
    requires m <= |s|
    ensures r.Some? ==> m < r.value.len <= |s|
  {
    var w := RunEnd(s, m, Space);
    if w == m || w == |s| || s[w] != '\'' then None else DictValue(s, w, mask)
  }

  /** The dict form after its opening quote `w`: `.*?` stops at the first
      quote and cannot cross a newline. */
  function DictValue(s: string, w: nat, mask: string): (r: Option<Hit>)
    requires w < |s|
    ensures r.Some? ==> w < r.value.len <= |s|
  {
    var e := RunEnd(s, w + 1, ValueChar);
    if e < |s| && s[e] == '\'' then Some(Hit(e + 1, s[..w] + "'" + mask + "'")) else None
  }

  /** `re.sub(pattern, repl, s)` for one rule: every non-overlapping match,
      left to right. */
  function Substitute(s: string, rule: Rule): (r: string)
    ensures !Occurs(s, Marker(rule)) ==> r == s
    decreases |s|
  {
    if |s| == 0 then ""
    else
      assert s[0..] == s;
      OccursInTail(s, Marker(rule));
      match MatchAt(s, rule)
      case Some(hit) => hit.replacement + Substitute(s[hit.len..], rule)
      case None => [s[0]] + Substitute(s[1..], rule)
  }

  /** The texts `('<key>':\s+)'(.*?)'` can match: the marker, one or more
      whitespace characters, a quote, a value without newlines (quotes
      allowed), a quote. */
  ghost predicate DictShape(t: string, rule: Rule)
    requires rule.DictRule?
  {
    var m := |Marker(rule)|;
    && |t| >= m + 3
    && StartsWith(t, Marker(rule))
    && t[|t| - 1] == '\''
    && exists w :: m < w < |t| - 1 && t[w] == '\'' && AllInRange(t, m, w, Space) && AllInRange(t, w + 1, |t| - 1, NotNewline)
  }

  /** The texts `<name>='[^']*(?=')'` can match: the marker, a value without
      quotes, a quote. */
  ghost predicate ObjectShape(t: string, rule: Rule)
    requires rule.ObjectRule?
  {
    && |t| > |Marker(rule)|
    && StartsWith(t, Marker(rule))
    && t[|t| - 1] == '\''
    && AllInRange(t, |Marker(rule)|, |t| - 1, NonQuote)
  }

  /** The dict-form match is a text of the pattern's shape, and it is the
      shortest prefix of that shape (the lazy `.*?` stops at the first
      closing quote); with no such prefix there is no match. */
  lemma DictMatchIsShortest(s: string, rule: Rule)
    requires rule.DictRule?
    ensures MatchAt(s, rule).Some? ==> DictShape(s[..MatchAt(s, rule).value.len], rule)
    ensures forall l :: 0 <= l <= |s| && DictShape(s[..l], rule) ==>
      MatchAt(s, rule).Some? && MatchAt(s, rule).value.len <= l
  {
    if MatchAt(s, rule).Some? {
      DictMatchHasShape(s, rule);
    }
    forall l | 0 <= l <= |s| && DictShape(s[..l], rule)
      ensures MatchAt(s, rule).Some? && MatchAt(s, rule).value.len <= l
    {
      DictShapeMatches(s, rule, l);
    }
  }

  /** The text the dict-form match covers has the pattern's shape. */
  lemma DictMatchHasShape(s: string, rule: Rule)
    requires rule.DictRule? && MatchAt(s, rule).Some?
    ensures DictShape(s[..MatchAt(s, rule).value.len], rule)
  {
    var m := |Marker(rule)|;
    assert StartsWith(s, Marker(rule)) && MatchAt(s, rule) == DictMatch(s, m, rule.mask);
    var w := RunEnd(s, m, Space);
    assert m < w < |s| && s[w] == '\'' && DictMatch(s, m, rule.mask) == DictValue(s, w, rule.mask);
    var e := RunEnd(s, w + 1, ValueChar);
    assert e < |s| && s[e] == '\'' && DictValue(s, w, rule.mask).value.len == e + 1;
    DictShapeFromParts(s, rule, w, e);
  }

  /** A marker, whitespace, a quote, a value and a quote have the dict shape. */
  lemma DictShapeFromParts(s: string, rule: Rule, w: nat, e: nat)
    requires rule.DictRule?
    requires StartsWith(s, Marker(rule))
    requires |Marker(rule)| < w < e < |s|
    requires AllInRange(s, |Marker(rule)|, w, Space) && s[w] == '\''
    requires AllInRange(s, w + 1, e, ValueChar) && s[e] == '\''
    ensures DictShape(s[..e + 1], rule)
  {
    var m := |Marker(rule)|;
    var t := s[..e + 1];
    assert t[..m] == s[..m];
    assert AllInRange(t, m, w, Space);
    assert AllInRange(t, w + 1, |t| - 1, NotNewline);
    assert m < w < |t| - 1 && t[w] == '\'';
  }

  /** The dict-form match at the start of `s`, given where its opening
      quote `w` and its closing quote `e` are. */
  lemma DictMatchFromParts(s: string, rule: Rule, w: nat, e: nat)
    requires rule.DictRule?
    requires StartsWith(s, Marker(rule))
    requires |Marker(rule)| < w < e < |s|
    requires AllInRange(s, |Marker(rule)|, w, Space) && s[w] == '\''
    requires AllInRange(s, w + 1, e, ValueChar) && s[e] == '\''
    ensures MatchAt(s, rule) == Some(Hit(e + 1, s[..w] + "'" + rule.mask + "'"))
  {
    RunEndExact(s, |Marker(rule)|, Space, w);
    RunEndExact(s, w + 1, ValueChar, e);
  }

  /** A value without newlines that ends in a quote: the lazy `.*?` stops at
      the first quote, which is no later than that one. */
  lemma LazyValueEnd(s: string, from: nat, n: nat)
    requires from <= n < |s| && s[n] == '\'' && AllInRange(s, from, n, NotNewline)
    ensures RunEnd(s, from, ValueChar) <= n && s[RunEnd(s, from, ValueChar)] == '\''
  {
    RunEndBound(s, from, ValueChar, n);
    var r := RunEnd(s, from, ValueChar);
    if r < n {
      assert InClass(s[r], NotNewline);
    }
  }

  /** Any prefix of the dict shape contains the match. */
  lemma DictShapeMatches(s: string, rule: Rule, l: nat)
    requires rule.DictRule?
    requires l <= |s| && DictShape(s[..l], rule)
    ensures MatchAt(s, rule).Some? && MatchAt(s, rule).value.len <= l
  {
    var w := DictShapeQuote(s[..l], rule);
    assert s[w] == s[..l][w] && s[l - 1] == s[..l][l - 1];
    DictPartsMatch(s, rule, l, w);
  }

  /** The opening quote of a text of the dict shape. */
  lemma DictShapeQuote(t: string, rule: Rule) returns (w: nat)
    requires rule.DictRule? && DictShape(t, rule)
    ensures |Marker(rule)| < w < |t| - 1 && t[w] == '\''
    ensures AllInRange(t, |Marker(rule)|, w, Space) && AllInRange(t, w + 1, |t| - 1, NotNewline)
  {
    w :| |Marker(rule)| < w < |t| - 1 && t[w] == '\'' && AllInRange(t, |Marker(rule)|, w, Space)
      && AllInRange(t, w + 1, |t| - 1, NotNewline);
  }

  /** The same, given where the prefix's opening quote `w` is. */
  lemma DictPartsMatch(s: string, rule: Rule, l: nat, w: nat)
    requires rule.DictRule? && l <= |s| && StartsWith(s[..l], Marker(rule))
    requires |Marker(rule)| < w < l - 1 && s[w] == '\'' && s[l - 1] == '\''
    requires AllInRange(s[..l], |Marker(rule)|, w, Space) && AllInRange(s[..l], w + 1, l - 1, NotNewline)
    ensures MatchAt(s, rule).Some? && MatchAt(s, rule).value.len <= l
  {
    var m := |Marker(rule)|;
    assert StartsWith(s, Marker(rule)) by {
      assert s[..m] == s[..l][..m];
    }
    PrefixRange(s, l, m, w, Space);
    PrefixRange(s, l, w + 1, l - 1, NotNewline);
    LazyValueEnd(s, w + 1, l - 1);
    DictMatchFromParts(s, rule, w, RunEnd(s, w + 1, ValueChar));
  }

  /** The object-form match is exactly the one prefix of the pattern's shape. */
  lemma ObjectMatchIsUnique(s: string, rule: Rule)
    requires rule.ObjectRule?
    ensures MatchAt(s, rule).Some? ==> ObjectShape(s[..MatchAt(s, rule).value.len], rule)
    ensures forall l :: 0 <= l <= |s| && ObjectShape(s[..l], rule) ==>
      MatchAt(s, rule).Some? && MatchAt(s, rule).value.len == l
  {
    if MatchAt(s, rule).Some? {
      ObjectMatchHasShape(s, rule);
    }
    forall l | 0 <= l <= |s| && ObjectShape(s[..l], rule)
      ensures MatchAt(s, rule).Some? && MatchAt(s, rule).value.len == l
    {
      ObjectShapeMatches(s, rule, l);
    }
  }

  /** The text the object-form match covers has the pattern's shape. */
  lemma ObjectMatchHasShape(s: string, rule: Rule)
    requires rule.ObjectRule? && MatchAt(s, rule).Some?
    ensures ObjectShape(s[..MatchAt(s, rule).value.len], rule)
  {
    var m := |Marker(rule)|;
    assert StartsWith(s, Marker(rule));
    var e := RunEnd(s, m, NonQuote);
    assert e < |s| && MatchAt(s, rule).value.len == e + 1;
    var t := s[..e + 1];
    assert t[..m] == s[..m];
    assert AllInRange(t, m, |t| - 1, NonQuote);
  }

  /** A prefix of the object shape is the match. */
  lemma ObjectShapeMatches(s: string, rule: Rule, l: nat)
    requires rule.ObjectRule?
    requires l <= |s| && ObjectShape(s[..l], rule)
    ensures MatchAt(s, rule).Some? && MatchAt(s, rule).value.len == l
  {
    var m := |Marker(rule)|;
    assert StartsWith(s, Marker(rule)) by {
      assert s[..m] == s[..l][..m];
    }
    PrefixRange(s, l, m, l - 1, NonQuote);
    assert s[l - 1] == s[..l][l - 1];
    ObjectMatchFromParts(s, rule, l - 1);
  }

  /** The object-form match at the start of `s`, given its closing quote `e`. */
  lemma ObjectMatchFromParts(s: string, rule: Rule, e: nat)
    requires rule.ObjectRule?
    requires StartsWith(s, Marker(rule))
    requires |Marker(rule)| <= e < |s|
    requires AllInRange(s, |Marker(rule)|, e, NonQuote) && s[e] == '\''
    ensures MatchAt(s, rule) == Some(Hit(e + 1, rule.name + " = " + rule.mask))
  {
    RunEndExact(s, |Marker(rule)|, NonQuote, e);
  }

  /** Where no match starts, one character is copied and the scan moves on. */
  lemma SubstituteStep(s: string, rule: Rule)
    requires |s| > 0 && MatchAt(s, rule).None?
    ensures Substitute(s, rule) == [s[0]] + Substitute(s[1..], rule)
  {
  }

  /** No match of `rule` starts at position `k` of `s`. */
  predicate NoMatchAt(s: string, k: nat, rule: Rule)
    requires k <= |s|
  {
    MatchAt(s[k..], rule).None?
  }

  /** Moving past one character where no match starts. */
  lemma SubstitutePlainChar(s: string, rule: Rule, j: nat)
    requires j < |s| && NoMatchAt(s, j, rule)
    ensures s[..j] + Substitute(s[j..], rule) == s[..j + 1] + Substitute(s[j + 1..], rule)
  {
    var t := s[j..];
    assert Substitute(t, rule) == [s[j]] + Substitute(s[j + 1..], rule) by {
      SubstituteStep(t, rule);
      assert t[0] == s[j] && t[1..] == s[j + 1..];
    }
    assert s[..j + 1] == s[..j] + [s[j]];
    AppendAssoc(s[..j], [s[j]], Substitute(s[j + 1..], rule));
  }

  /** The first `i` characters, where no match starts, are copied as they are. */
  lemma {:induction false} SubstitutePlainPrefix(s: string, rule: Rule, i: nat)
    requires i <= |s|
    requires forall k :: 0 <= k < i ==> NoMatchAt(s, k, rule)
    ensures Substitute(s, rule) == s[..i] + Substitute(s[i..], rule)
    decreases i
  {
    if i == 0 {
      assert s[..0] + Substitute(s[0..], rule) == Substitute(s, rule) by {
        assert s[..0] == [] && s[0..] == s;
      }
    } else {
      var j := i - 1;
      assert Substitute(s, rule) == s[..j] + Substitute(s[j..], rule) by {
        SubstitutePlainPrefix(s, rule, j);
      }
      assert s[..j] + Substitute(s[j..], rule) == s[..i] + Substitute(s[i..], rule) by {
        SubstitutePlainChar(s, rule, j);
      }
    }
  }

  /** A prefix in which no match can start is copied as it is. */
  lemma SubstituteAfterPlain(pre: string, rest: string, rule: Rule)
    requires forall k :: 0 <= k < |pre| ==> MatchAt((pre + rest)[k..], rule).None?
    ensures Substitute(pre + rest, rule) == pre + Substitute(rest, rule)
  {
    var s := pre + rest;
    assert forall k :: 0 <= k < |pre| ==> NoMatchAt(s, k, rule);
    SubstitutePlainPrefix(s, rule, |pre|);
    assert s[..|pre|] == pre;
    assert s[|pre|..] == rest;
  }

  /** One dict-form field at the start of the text. */
  lemma SubstituteDictFieldFirst(rule: Rule, ws: string, value: string, post: string)
    requires rule.DictRule?
    requires |ws| > 0 && AllSpace(ws)
    requires AllIn(value, ValueChar)
    ensures Substitute(Marker(rule) + ws + "'" + value + "'" + post, rule)
      == Marker(rule) + ws + "'" + rule.mask + "'" + Substitute(post, rule)
  {
    var marker := Marker(rule);
    var rest := marker + ws + "'" + value + "'" + post;
    var m := |marker|;
    var w := m + |ws|;
    var e := w + 1 + |value|;
    assert rest[..m] == marker;
    assert rest[m..w] == ws;
    AllInSlice(rest, m, w, Space);
    assert rest[w + 1..e] == value;
    AllInSlice(rest, w + 1, e, ValueChar);
    assert rest[..w] == marker + ws;
    DictMatchFromParts(rest, rule, w, e);
    assert rest[e + 1..] == post;
  }

  /** Dict form: `'<key>':`, whitespace and a quoted value without quotes or
      newlines has the value replaced by the mask; the key and the
      whitespace are kept, and the scan goes on after the closing quote. */
  lemma RedactDictField(rule: Rule, pre: string, ws: string, value: string, post: string)
    requires rule.DictRule?
    requires |ws| > 0 && AllSpace(ws)
    requires AllIn(value, ValueChar)
    requires var s := pre + (Marker(rule) + ws + "'" + value + "'" + post);
      forall k :: 0 <= k < |pre| ==> MatchAt(s[k..], rule).None?
    ensures Substitute(pre + (Marker(rule) + ws + "'" + value + "'" + post), rule)
      == pre + (Marker(rule) + ws + "'" + rule.mask + "'" + Substitute(post, rule))
  {
    SubstituteAfterPlain(pre, Marker(rule) + ws + "'" + value + "'" + post, rule);
    SubstituteDictFieldFirst(rule, ws, value, post);
  }

  /** One object-form field at the start of the text. */
  lemma SubstituteObjectFieldFirst(rule: Rule, value: string, post: string)
    requires rule.ObjectRule?
    requires AllIn(value, NonQuote)
    ensures Substitute(Marker(rule) + value + "'" + post, rule) == rule.name + " = " + rule.mask + Substitute(post, rule)
  {
    var marker := Marker(rule);
    var rest := marker + value + "'" + post;
    var e := |marker| + |value|;
    assert rest[..|marker|] == marker;
    assert rest[|marker|..e] == value;
    AllInSlice(rest, |marker|, e, NonQuote);
    ObjectMatchFromParts(rest, rule, e);
    assert rest[e + 1..] == post;
  }

  /** Object form: `<name>='<value>'` with a quote-free value becomes
      `<name> = <mask>`, and the scan goes on after the closing quote. */
  lemma RedactObjectField(rule: Rule, pre: string, value: string, post: string)
    requires rule.ObjectRule?
    requires AllIn(value, NonQuote)
    requires var s := pre + (Marker(rule) + value + "'" + post);
      forall k :: 0 <= k < |pre| ==> MatchAt(s[k..], rule).None?
    ensures Substitute(pre + (Marker(rule) + value + "'" + post), rule)
      == pre + (rule.name + " = " + rule.mask + Substitute(post, rule))
  {
    SubstituteAfterPlain(pre, Marker(rule) + value + "'" + post, rule);
    SubstituteObjectFieldFirst(rule, value, post);
  }

  /** The four dict-form substitutions of `_filter`, in order. */
  const DictRules: seq<Rule> := [
    DictRule("_pull_secret", "*** PULL_SECRET ***"),
    DictRule("_ssh_public_key", "*** SSH_KEY ***"),
    DictRule("_vsphere_username", "*** VSPHERE_USER ***"),
    DictRule("_vsphere_password", "*** VSPHERE_PASSWORD ***")
  ]

  /** The four object-form substitutions of `_filter`, in order. */
  const ObjectRules: seq<Rule> := [
    ObjectRule("pull_secret", "*** PULL_SECRET ***"),
    ObjectRule("ssh_public_key", "*** SSH_KEY ***"),
    ObjectRule("vsphere_username", "*** VSPHERE_USER ***"),
    ObjectRule("vsphere_password", "*** VSPHERE_PASSWORD ***")
  ]

  /** Apply the substitutions one after another. */
  function ApplyRules(s: string, rules: seq<Rule>): string
    decreases |rules|
  {
    if |rules| == 0 then s else ApplyRules(Substitute(s, rules[0]), rules[1..])
  }

  /** `SensitiveFormatter._filter`: the dict-form substitutions, then the
      object-form ones. `SensitiveFormatter.format` applies it to the text
      the standard formatter produces. */
  function Filter(s: string): (r: string)
    ensures (forall i :: 0 <= i < |DictRules + ObjectRules| ==> !Occurs(s, Marker((DictRules + ObjectRules)[i]))) ==> r == s
  {
    ApplyRulesWithoutMarkers(s, DictRules + ObjectRules);
    ApplyRules(s, DictRules + ObjectRules)
  }

  /** Running two lists of substitutions in sequence is running their
      concatenation. */
  lemma {:induction false} ApplyRulesAppend(s: string, a: seq<Rule>, b: seq<Rule>)
    ensures ApplyRules(s, a + b) == ApplyRules(ApplyRules(s, a), b)
    decreases |a|
  {
    if |a| > 0 {
      assert (a + b)[0] == a[0];
      assert (a + b)[1..] == a[1..] + b;
      ApplyRulesAppend(Substitute(s, a[0]), a[1..], b);
    } else {
      assert a + b == b;
    }
  }

  /** Every dict-form substitution happens before any object-form one. */
  lemma FilterOrder(s: string)
    ensures Filter(s) == ApplyRules(ApplyRules(s, DictRules), ObjectRules)
  {
    ApplyRulesAppend(s, DictRules, ObjectRules);
  }

  /** Substitutions whose markers all miss the text leave it unchanged. */
  lemma {:induction false} ApplyRulesWithoutMarkers(s: string, rules: seq<Rule>)
    ensures (forall i :: 0 <= i < |rules| ==> !Occurs(s, Marker(rules[i]))) ==> ApplyRules(s, rules) == s
    decreases |rules|
  {
    if |rules| > 0 {
      ApplyRulesWithoutMarkers(s, rules[1..]);
      if forall i :: 0 <= i < |rules| ==> !Occurs(s, Marker(rules[i])) {
        forall i | 0 <= i < |rules[1..]|
          ensures !Occurs(s, Marker(rules[1..][i]))
        {
          assert rules[1..][i] == rules[i + 1];
        }
      }
    }
  }

  /** `logging.INFO`, the level used when none is configured. */
  const Info := 20

  /** What `getattr(logging, NAME)` yields: a numeric level, or another
      module attribute whose name happens to match. */
  datatype LevelAttr = Level(n: int) | NotALevel(name: string)

  /** `c.upper()` on the characters whose upper case is made of ASCII
      letters: `a`-`z`, dotless `ı` (to `I`), long `ſ` (to `S`), sharp `ß`
      (to `SS`) and the Latin ligatures U+FB00-U+FB06 (to `FF`, `FI`, `FL`,
      `FFI`, `FFL`, `ST`, `ST`). Any other character is kept: Python
      keeps an ASCII one as it is and upper-cases any other to a text
      holding a non-ASCII character, which no attribute name of `logging`
      contains. */
  function UpperChar(c: char): (r: string)
    ensures 1 <= |r| <= 3
    ensures forall k :: 0 <= k < |r| ==> !IsLowerAscii(r[k])
  {
    if 'a' <= c <= 'z' then [AsciiUpper(c)]
    else if c == '\U{131}' then "I"
    else if c == '\U{17F}' then "S"
    else if c == '\U{DF}' then "SS"
    else if c == '\U{FB00}' then "FF"
    else if c == '\U{FB01}' then "FI"
    else if c == '\U{FB02}' then "FL"
    else if c == '\U{FB03}' then "FFI"
    else if c == '\U{FB04}' then "FFL"
    else if c == '\U{FB05}' || c == '\U{FB06}' then "ST"
    else [c]
  }

  predicate IsLowerAscii(c: char) {
    'a' <= c <= 'z'
  }

  /** `s.upper()`: each character's upper case, in order. */
  function Upper(s: string): (r: string)
    ensures |s| <= |r| <= 3 * |s|
    ensures forall k :: 0 <= k < |r| ==> !IsLowerAscii(r[k])
    decreases |s|
  {
    if |s| == 0 then "" else UpperChar(s[0]) + Upper(s[1..])
  }

  /** Upper-casing works character by character. */
  lemma {:induction false} UpperAppend(a: string, b: string)
    ensures Upper(a + b) == Upper(a) + Upper(b)
    decreases |a|
  {
    if |a| == 0 {
      assert a + b == b;
    } else {
      assert (a + b)[0] == a[0];
      assert (a + b)[1..] == a[1..] + b;
      UpperAppend(a[1..], b);
      AppendAssoc(UpperChar(a[0]), Upper(a[1..]), Upper(b));
    }
  }

  /** Upper case is its own upper case. */
  lemma UpperCharStable(c: char)
    ensures Upper(UpperChar(c)) == UpperChar(c)
  {
    var u := UpperChar(c);
    if |u| == 1 {
      assert Upper(u) == UpperChar(u[0]) + Upper(u[1..]);
      assert u[1..] == "";
    } else if |u| == 2 {
      assert Upper(u) == UpperChar(u[0]) + (UpperChar(u[1]) + Upper(u[1..][1..]));
      assert u[1..][1..] == "";
    } else {
      assert Upper(u) == UpperChar(u[0]) + (UpperChar(u[1]) + (UpperChar(u[2]) + Upper(u[1..][1..][1..])));
      assert u[1..][1..][1..] == "";
    }
  }

  /** The upper-case attributes of the `logging` module. */
  function LoggingAttribute(name: string): Option<LevelAttr> {
    if name == "CRITICAL" || name == "FATAL" then Some(Level(50))
    else if name == "ERROR" then Some(Level(40))
    else if name == "WARNING" || name == "WARN" then Some(Level(30))
    else if name == "INFO" then Some(Level(20))
    else if name == "DEBUG" then Some(Level(10))
    else if name == "NOTSET" then Some(Level(0))
    else if name == "BASIC_FORMAT" || name == "_STYLES" then Some(NotALevel(name))
    else None
  }

  /** logger.py `get_logging_level`. */
  function GetLoggingLevel(env: map<string, string>): (r: LevelAttr)
    ensures ("LOGGING_LEVEL" !in env || env["LOGGING_LEVEL"] == "") ==> r == Level(Info)
    ensures "LOGGING_LEVEL" in env && LoggingAttribute(Upper(env["LOGGING_LEVEL"])).None? ==> r == Level(Info)
    ensures "LOGGING_LEVEL" in env && env["LOGGING_LEVEL"] != "" && LoggingAttribute(Upper(env["LOGGING_LEVEL"])).Some? ==>
      r == LoggingAttribute(Upper(env["LOGGING_LEVEL"])).value
    ensures r.Level? ==> r.n in {0, 10, 20, 30, 40, 50}
    ensures r.NotALevel? ==> r.name == Upper(env["LOGGING_LEVEL"])
  {
    var level := if "LOGGING_LEVEL" in env then env["LOGGING_LEVEL"] else "";
    if level == "" then Level(Info)
    else LoggingAttribute(Upper(level)).GetOr(Level(Info))
  }

  lemma {:induction false} UpperIdempotent(s: string)
    ensures Upper(Upper(s)) == Upper(s)
    decreases |s|
  {
    if |s| > 0 {
      UpperAppend(UpperChar(s[0]), Upper(s[1..]));
      UpperCharStable(s[0]);
      UpperIdempotent(s[1..]);
    }
  }

  /** The name is looked up without regard to letter case. */
  lemma LoggingLevelIgnoresCase(env: map<string, string>, name: string)
    ensures GetLoggingLevel(env["LOGGING_LEVEL" := name]) == GetLoggingLevel(env["LOGGING_LEVEL" := Upper(name)])
  {
    UpperIdempotent(name);
  }

  /** Letters, digits and `_`: the characters of a plain level name. */
  predicate PlainName(s: string) {
    forall k :: 0 <= k < |s| ==> 'A' <= s[k] <= 'Z' || 'a' <= s[k] <= 'z' || '0' <= s[k] <= '9' || s[k] == '_'
  }

  /** On ASCII a lower-case letter becomes its capital; nothing else changes. */
  function AsciiUpper(c: char): char {
    if 'a' <= c <= 'z' then (c as int - 32) as char else c
  }

  /** A plain name upper-cases one character for one. */
  lemma {:induction false} UpperPlainName(s: string)
    requires PlainName(s)
    ensures |Upper(s)| == |s|
    ensures forall k :: 0 <= k < |s| ==> Upper(s)[k] == AsciiUpper(s[k])
    decreases |s|
  {
    if |s| > 0 {
      UpperPlainName(s[1..]);
      assert UpperChar(s[0]) == [AsciiUpper(s[0])];
      forall k | 1 <= k < |s|
        ensures Upper(s)[k] == AsciiUpper(s[k])
      {
        assert s[1..][k - 1] == s[k];
      }
    }
  }

  /** `debug` selects DEBUG. */
  lemma DebugLevelExample(env: map<string, string>)
    ensures GetLoggingLevel(env["LOGGING_LEVEL" := "debug"]) == Level(10)
  {
    UpperPlainName("debug");
    assert Upper("debug") == "DEBUG";
  }

  /** `Warning` selects WARNING. */
  lemma WarningLevelExample(env: map<string, string>)
    ensures GetLoggingLevel(env["LOGGING_LEVEL" := "Warning"]) == Level(30)
  {
    UpperPlainName("Warning");
    assert Upper("Warning") == "WARNING";
  }

  /** An unknown name such as `verbose` gives INFO. */
  lemma UnknownLevelExample(env: map<string, string>)
    ensures GetLoggingLevel(env["LOGGING_LEVEL" := "verbose"]) == Level(Info)
  {
    UpperPlainName("verbose");
    assert Upper("verbose") == "VERBOSE";
  }

  /** `_ﬆ` upper-cases to `_ST`: the ligature expands to two letters. */
  lemma UpperLigatureHead()
    ensures Upper("_\U{FB06}") == "_ST"
  {
    var lig := ['\U{FB06}'];
    assert lig[1..] == [];
    assert Upper(lig) == "ST" + Upper([]);
    assert "_\U{FB06}"[1..] == lig;
    assert Upper("_\U{FB06}") == "_" + Upper(lig);
  }

  /** `_ﬆyles` upper-cases to `_STYLES`. */
  lemma UpperLigatureName()
    ensures Upper("_\U{FB06}yles") == "_STYLES"
  {
    assert "_\U{FB06}yles" == "_\U{FB06}" + "yles";
    UpperAppend("_\U{FB06}", "yles");
    UpperLigatureHead();
    UpperPlainName("yles");
    assert Upper("yles") == "YLES";
    assert "_ST" + "YLES" == "_STYLES";
  }

  /** The ligature `ﬆ` upper-cases to `ST`, so `_ﬆyles` names the
      non-level attribute `_STYLES`. */
  lemma LigatureNamesStyles(env: map<string, string>)
    ensures GetLoggingLevel(env["LOGGING_LEVEL" := "_\U{FB06}yles"]) == NotALevel("_STYLES")
  {
    UpperLigatureName();
    var withName := env["LOGGING_LEVEL" := "_\U{FB06}yles"];
    assert withName["LOGGING_LEVEL"] == "_\U{FB06}yles";
    assert LoggingAttribute("_STYLES") == Some(NotALevel("_STYLES"));
  }
}

=== FILE: text.dfy ===
/** String rules of Python's `str` type that the modelled code relies on:
    the whitespace class, `str.split()` without a separator, `sep.join(parts)`,
    `str.startswith` and ASCII case mapping. */
module Text {

  /** Python's `str.isspace()` for one character, which is also the class the
      `re` module's `\s` matches in a `str` pattern and the separator class of
      `str.split()` with no argument. */
  predicate IsSpace(c: char) {
    || ('\U{9}' <= c <= '\U{D}')
    || ('\U{1C}' <= c <= '\U{20}')
    || c == '\U{85}' || c == '\U{A0}' || c == '\U{1680}'
    || ('\U{2000}' <= c <= '\U{200A}')
    || c == '\U{2028}' || c == '\U{2029}' || c == '\U{202F}'
    || c == '\U{205F}' || c == '\U{3000}'
  }

  predicate AllSpace(s: string) {
    forall k :: 0 <= k < |s| ==> IsSpace(s[k])
  }

  predicate NoSpace(s: string) {
    forall k :: 0 <= k < |s| ==> !IsSpace(s[k])
  }

  /** A token `str.split()` can produce: non-empty and free of whitespace. */
  predicate IsWord(s: string) {
    |s| > 0 && NoSpace(s)
  }

  predicate StartsWith(s: string, prefix: string) {
    |prefix| <= |s| && s[..|prefix|] == prefix
  }

  /** `needle` occurs somewhere inside `s`. */
  predicate Occurs(s: string, needle: string) {
    exists k :: 0 <= k <= |s| && StartsWith(s[k..], needle)
  }

  /** An occurrence in the tail of a string is an occurrence in the string. */
  lemma OccursInTail(s: string, needle: string)
    requires |s| > 0
    ensures Occurs(s[1..], needle) ==> Occurs(s, needle)
  {
    if Occurs(s[1..], needle) {
      var k :| 0 <= k <= |s[1..]| && StartsWith(s[1..][k..], needle);
      assert s[1..][k..] == s[k + 1..];
    }
  }

  /** The scan behind `str.split()`: `cur` is the token being collected. */
  function SplitFrom(s: string, cur: string): (r: seq<string>)
    requires NoSpace(cur)
    ensures forall i :: 0 <= i < |r| ==> IsWord(r[i])
    decreases |s|
  {
    if |s| == 0 then
      (if cur == [] then [] else [cur])
    else if IsSpace(s[0]) then
      (if cur == [] then SplitFrom(s[1..], []) else [cur] + SplitFrom(s[1..], []))
    else
      SplitFrom(s[1..], cur + [s[0]])
  }

  /** Python's `s.split()`: the maximal runs of non-whitespace, in order. */
  function Split(s: string): (r: seq<string>)
    ensures forall i :: 0 <= i < |r| ==> IsWord(r[i])
  {
    SplitFrom(s, [])
  }

  /** Python's `sep.join(parts)`. */
  function Join(parts: seq<string>, sep: string): string
    decreases |parts|
  {
    if |parts| == 0 then ""
    else if |parts| == 1 then parts[0]
    else parts[0] + sep + Join(parts[1..], sep)
  }

  /** A join starts with its first part. */
  lemma JoinStartsWithFirst(parts: seq<string>, sep: string)
    requires |parts| > 0
    ensures StartsWith(Join(parts, sep), parts[0])
  {
    if |parts| > 1 {
      assert Join(parts, sep) == parts[0] + (sep + Join(parts[1..], sep));
    }
  }

  lemma StartsWithTransitive(s: string, p: string, q: string)
    requires StartsWith(s, p) && StartsWith(p, q)
    ensures StartsWith(s, q)
  {
    assert s[..|q|] == s[..|p|][..|q|];
  }

  /** Concatenation regroups freely. */
  lemma AppendAssoc<T>(a: seq<T>, b: seq<T>, c: seq<T>)
    ensures a + (b + c) == (a + b) + c
  {
  }

  /** Words separated by single spaces: `" ".join(words)`. */
  function Unwords(words: seq<string>): string {
    Join(words, " ")
  }

  /** Collecting a whitespace-free run appends it to the current token. */
  lemma {:induction false} SplitFromRun(run: string, rest: string, cur: string)
    requires NoSpace(run) && NoSpace(cur)
    ensures SplitFrom(run + rest, cur) == SplitFrom(rest, cur + run)
    decreases |run|
  {
    if |run| > 0 {
      assert (run + rest)[0] == run[0];
      assert (run + rest)[1..] == run[1..] + rest;
      assert cur + run == (cur + [run[0]]) + run[1..];
      SplitFromRun(run[1..], rest, cur + [run[0]]);
    } else {
      assert run + rest == rest;
      assert cur + run == cur;
    }
  }

  /** Leading whitespace never reaches a token. */
  lemma {:induction false} SplitSkipsSpace(ws: string, rest: string)
    requires AllSpace(ws)
    ensures Split(ws + rest) == Split(rest)
    decreases |ws|
  {
    if |ws| > 0 {
      assert (ws + rest)[0] == ws[0];
      assert (ws + rest)[1..] == ws[1..] + rest;
      SplitSkipsSpace(ws[1..], rest);
    } else {
      assert ws + rest == rest;
    }
  }

  /** `str.split()` undoes `" ".join(words)` for whitespace-free words. */
  lemma {:induction false} SplitUnwords(words: seq<string>)
    requires forall i :: 0 <= i < |words| ==> IsWord(words[i])
    ensures Split(Unwords(words)) == words
    decreases |words|
  {
    if |words| == 1 {
      SplitFromRun(words[0], "", []);
      assert words[0] + "" == words[0];
      assert [] + words[0] == words[0];
      assert SplitFrom("", words[0]) == [words[0]];
    } else if |words| > 1 {
      var w := words[0];
      var tail := Unwords(words[1..]);
      assert Unwords(words) == w + (" " + tail);
      SplitFromRun(w, " " + tail, []);
      assert [] + w == w;
      assert (" " + tail)[0] == ' ';
      assert (" " + tail)[1..] == tail;
      SplitUnwords(words[1..]);
      assert words == [w] + words[1..];
    }
  }

  /** A whitespace run ends the token being collected. */
  lemma {:induction false} SplitFromSpace(ws: string, rest: string, cur: string)
    requires AllSpace(ws) && |ws| > 0
    requires IsWord(cur)
    ensures SplitFrom(ws + rest, cur) == [cur] + Split(rest)
  {
    assert (ws + rest)[0] == ws[0];
    assert (ws + rest)[1..] == ws[1..] + rest;
    SplitSkipsSpace(ws[1..], rest);
  }

  /** A string of whitespace only splits into nothing. */
  lemma SplitAllSpace(ws: string)
    requires AllSpace(ws)
    ensures Split(ws) == []
  {
    SplitSkipsSpace(ws, "");
    assert ws + "" == ws;
  }

  /** Two words with any whitespace before, between and after them split
      into exactly those two words. */
  lemma SplitTwoWords(lead: string, a: string, mid: string, b: string, trail: string)
    requires AllSpace(lead) && AllSpace(mid) && |mid| > 0 && AllSpace(trail)
    requires IsWord(a) && IsWord(b)
    ensures Split(lead + a + mid + b + trail) == [a, b]
  {
    var s := lead + a + mid + b + trail;
    assert s == lead + (a + (mid + (b + trail)));
    SplitSkipsSpace(lead, a + (mid + (b + trail)));
    SplitFromRun(a, mid + (b + trail), []);
    assert [] + a == a;
    SplitFromSpace(mid, b + trail, a);
    SplitFromRun(b, trail, []);
    assert [] + b == b;
    if |trail| == 0 {
      assert SplitFrom(trail, b) == [b];
    } else {
      SplitFromSpace(trail, "", b);
      assert trail + "" == trail;
      assert Split("") == [];
    }
  }

  /** Python's `c.lower()` restricted to what it does on ASCII letters. */
  function LowerAscii(c: char): char {
    if 'A' <= c <= 'Z' then (c as int + 32) as char else c
  }

  /** `s.lower()` on ASCII letters; other characters are kept. */
  function LowerAsciiString(s: string): (r: string)
    ensures |r| == |s|
    ensures forall k :: 0 <= k < |s| ==> r[k] == LowerAscii(s[k])
  {
    seq(|s|, k requires 0 <= k < |s| => LowerAscii(s[k]))
  }
}

=== FILE: tools.dfy ===
/** The pure rules inside the MCP tools of server.py: presigned-URL
    formatting, the ISO download-URL aggregation, the cluster-id guard of
    `create_cluster`, and the transport whitelist. Inventory calls are
    oracles passed in by the caller. */
module Tools {
  import opened Wrappers
  import opened Text

  const UrlLabel := "URL: "
  const ExpiryLabel := "Expires at: "
  const ZeroDatePrefix := "0001-01-01"
  const NoIsoMessage := "No ISO download URLs found for this cluster."
  const UnknownInfraEnvId := "unknown"

  /** A presigned URL as returned by the inventory: `url` and `expires_at`
      are optional; `expires_at` holds the text `str()` gives for it. */
  datatype PresignedUrl = PresignedUrl(url: Option<string>, expiresAt: Option<string>)

  /** The text an f-string renders for an optional string. */
  function Show(v: Option<string>): string {
    match v
    case Some(s) => s
    case None => "None"
  }

  /** The expiry is shown when it is set, non-empty, and not the zero date. */
  predicate ShowsExpiry(p: PresignedUrl) {
    p.expiresAt.Some? && p.expiresAt.value != "" && !StartsWith(p.expiresAt.value, ZeroDatePrefix)
  }

  /** server.py `format_presigned_url`: the URL line, then the expiry line
      when it is meaningful, joined by a newline. */
  function FormatPresignedUrl(p: PresignedUrl): (r: string)
    ensures StartsWith(r, UrlLabel + Show(p.url))
    ensures ShowsExpiry(p) ==> r[|UrlLabel + Show(p.url)|..] == "\n" + ExpiryLabel + p.expiresAt.value
    ensures !ShowsExpiry(p) ==> r == UrlLabel + Show(p.url)
  {
    var parts := [UrlLabel + Show(p.url)]
      + (if ShowsExpiry(p) then [ExpiryLabel + p.expiresAt.value] else []);
    if ShowsExpiry(p) then
      assert Join(parts, "\n") == parts[0] + ("\n" + parts[1]);
      Join(parts, "\n")
    else
      Join(parts, "\n")
  }

  /** An expiry at the zero date `0001-01-01 …` is never printed. */
  lemma ZeroDateOmitted(url: string, rest: string)
    ensures FormatPresignedUrl(PresignedUrl(Some(url), Some(ZeroDatePrefix + rest))) == UrlLabel + url
  {
    assert StartsWith(ZeroDatePrefix + rest, ZeroDatePrefix);
  }

  /** A missing expiry prints the URL line alone; a real one adds one line. */
  lemma ExpiryLine(url: string, expiry: string)
    ensures FormatPresignedUrl(PresignedUrl(Some(url), None)) == UrlLabel + url
    ensures expiry != "" && !StartsWith(expiry, ZeroDatePrefix) ==>
      FormatPresignedUrl(PresignedUrl(Some(url), Some(expiry))) == UrlLabel + url + "\n" + ExpiryLabel + expiry
  {
  }

  /** `if presigned_url.url:` */
  predicate HasUrl(p: PresignedUrl) {
    p.url.Some? && p.url.value != ""
  }

  /** `infra_env.get("id", "unknown")`. */
  function InfraEnvId(infraEnv: map<string, string>): string {
    if "id" in infraEnv then infraEnv["id"] else UnknownInfraEnvId
  }

  /** Reference definition: the formatted entries of the URLs that are set,
      in order. */
  function IsoEntries(urls: seq<PresignedUrl>): seq<string>
    decreases |urls|
  {
    if |urls| == 0 then []
    else
      var last := urls[|urls| - 1];
      IsoEntries(urls[..|urls| - 1]) + (if HasUrl(last) then [FormatPresignedUrl(last)] else [])
  }

  lemma {:induction false} IsoEntriesEmpty(urls: seq<PresignedUrl>)
    ensures IsoEntries(urls) == [] <==> forall i :: 0 <= i < |urls| ==> !HasUrl(urls[i])
    decreases |urls|
  {
    if |urls| > 0 {
      var init := urls[..|urls| - 1];
      IsoEntriesEmpty(init);
      assert forall i :: 0 <= i < |init| ==> init[i] == urls[i];
    }
  }

  lemma {:induction false} IsoEntriesAreUrlBlocks(urls: seq<PresignedUrl>)
    ensures forall i :: 0 <= i < |IsoEntries(urls)| ==> StartsWith(IsoEntries(urls)[i], UrlLabel)
    decreases |urls|
  {
    if |urls| > 0 {
      IsoEntriesAreUrlBlocks(urls[..|urls| - 1]);
      var last := urls[|urls| - 1];
      if HasUrl(last) {
        var f := FormatPresignedUrl(last);
        assert f[..|UrlLabel + Show(last.url)|] == UrlLabel + Show(last.url);
        assert f[..|UrlLabel|] == UrlLabel;
      }
    }
  }

  /** A join of URL blocks starts with the URL label. */
  lemma JoinStartsWithLabel(parts: seq<string>)
    requires |parts| > 0
    requires forall i :: 0 <= i < |parts| ==> StartsWith(parts[i], UrlLabel)
    ensures StartsWith(Join(parts, "\n\n"), UrlLabel)
  {
    JoinStartsWithFirst(parts, "\n\n");
    StartsWithTransitive(Join(parts, "\n\n"), parts[0], UrlLabel);
  }

  /** server.py `cluster_iso_download_url` after the token step: for each
      infra env, in order, ask `downloadUrl` for its presigned URL; keep the
      ones with a URL; answer a fixed message when none is left, otherwise
      join the formatted entries with a blank line. */
  method ClusterIsoDownloadText(infraEnvs: seq<map<string, string>>, downloadUrl: string -> PresignedUrl)
    returns (text: string, requested: seq<string>)
    ensures |requested| == |infraEnvs|
    ensures forall i :: 0 <= i < |infraEnvs| ==> requested[i] == InfraEnvId(infraEnvs[i])
    ensures var urls := seq(|infraEnvs|, i requires 0 <= i < |infraEnvs| => downloadUrl(InfraEnvId(infraEnvs[i])));
      && (text == NoIsoMessage <==> forall i :: 0 <= i < |urls| ==> !HasUrl(urls[i]))
      && (text != NoIsoMessage ==> text == Join(IsoEntries(urls), "\n\n"))
  {
    ghost var urls := seq(|infraEnvs|, i requires 0 <= i < |infraEnvs| => downloadUrl(InfraEnvId(infraEnvs[i])));
    requested := [];
    if |infraEnvs| == 0 {
      text := NoIsoMessage;
      return;
    }
    var isoInfo: seq<string> := [];
    var i := 0;
    while i < |infraEnvs|
      invariant 0 <= i <= |infraEnvs|
      invariant |requested| == i
      invariant forall k :: 0 <= k < i ==> requested[k] == InfraEnvId(infraEnvs[k])
      invariant isoInfo == IsoEntries(urls[..i])
    {
      var id := InfraEnvId(infraEnvs[i]);
      requested := requested + [id];
      var presigned := downloadUrl(id);
      if HasUrl(presigned) {
        isoInfo := isoInfo + [FormatPresignedUrl(presigned)];
      }
      assert urls[..i + 1][..i] == urls[..i];
      i := i + 1;
    }
    assert urls[..i] == urls;
    IsoEntriesEmpty(urls);
    if |isoInfo| == 0 {
      text := NoIsoMessage;
    } else {
      text := Join(isoInfo, "\n\n");
      IsoEntriesAreUrlBlocks(urls);
      JoinStartsWithLabel(isoInfo);
      assert text[..|UrlLabel|] == UrlLabel;
      assert NoIsoMessage[..|UrlLabel|] != UrlLabel by {
        assert NoIsoMessage[0] == 'N' && UrlLabel[0] == 'U';
      }
    }
  }

  /** The cluster returned by the inventory's create call. */
  datatype CreatedCluster = CreatedCluster(id: Option<string>, openshiftVersion: Option<string>)

  /** The arguments of `create_infra_env(name, cluster_id=…, openshift_version=…)`. */
  datatype InfraEnvCreation = InfraEnvCreation(name: string, clusterId: string, openshiftVersion: Option<string>)

  /** The tool's reply and the infra env it goes on to create, if any. */
  datatype CreateClusterOutcome = CreateClusterOutcome(reply: string, infraEnv: Option<InfraEnvCreation>)

  /** server.py `create_cluster` after the cluster is registered: an unset id
      stops with a failure message before any infra env is created;
      otherwise an infra env bound to the new cluster is created and the id
      is the reply. */
  function CreateClusterReply(name: string, created: CreatedCluster): (r: CreateClusterOutcome)
    ensures r.infraEnv.Some? <==> created.id.Some?
    ensures created.id.None? ==> r.reply == "Failed to create cluster " + name + ": cluster ID is unset"
    ensures created.id.Some? ==>
      && r.reply == created.id.value
      && r.infraEnv.value.name == name
      && r.infraEnv.value.clusterId == r.reply
      && r.infraEnv.value.openshiftVersion == created.openshiftVersion
  {
    match created.id
    case None => CreateClusterOutcome("Failed to create cluster " + name + ": cluster ID is unset", None)
    case Some(id) => CreateClusterOutcome(id, Some(InfraEnvCreation(name, id, created.openshiftVersion)))
  }

  /** The failure reply is recognisable by its fixed opening and names the
      cluster the caller asked for. */
  lemma CreateClusterFailureNamesCluster(name: string, created: CreatedCluster)
    requires created.id.None?
    ensures StartsWith(CreateClusterReply(name, created).reply, "Failed to create cluster ")
    ensures Occurs(CreateClusterReply(name, created).reply, name)
  {
    var head := "Failed to create cluster ";
    var reply := CreateClusterReply(name, created).reply;
    assert reply[..|head|] == head;
    assert reply[|head|..][..|name|] == name;
  }

  const Transports: seq<string> := ["http", "streamable-http", "sse"]
  const DefaultTransport := "sse"

  /** server.py `get_transport`: `TRANSPORT` when it names a supported
      transport, `sse` otherwise (unset included). */
  function GetTransport(env: map<string, string>): (r: string)
    ensures r in Transports
    ensures "TRANSPORT" in env && env["TRANSPORT"] in Transports ==> r == env["TRANSPORT"]
    ensures ("TRANSPORT" !in env || env["TRANSPORT"] !in Transports) ==> r == DefaultTransport
  {
    var t := if "TRANSPORT" in env then env["TRANSPORT"] else DefaultTransport;
    if t in Transports then t else DefaultTransport
  }

  /** Writing the chosen transport back into the environment chooses it again. */
  lemma TransportStable(env: map<string, string>)
    ensures GetTransport(env["TRANSPORT" := GetTransport(env)]) == GetTransport(env)
  {
  }
}

=== FILE: wrappers.dfy ===
/** Optional values and success/failure results, used wherever the Python
    code returns None, raises, or falls back to a default. */
module Wrappers {

  /** A value that may be absent (Python's `None`, or a missing dict key). */
  datatype Option<+T> = None | Some(value: T) {

    /** The wrapped value, or `default` when absent (Python's `d.get(k, default)`). */
    function GetOr(default: T): T {
      match this
      case Some(v) => v
      case None => default
    }
  }

  /** The outcome of an operation that either produces a value or raises. */
  datatype Result<+T, +E> = Ok(value: T) | Err(error: E)
}
